=== FILE: README.md ===
# Secret access helpers for Apps Script, modelled in Dafny

This project models the core of a small Google Apps Script library that reads secrets from
Google Cloud Secret Manager (`Code.ts`). It has three parts:

- `getSecret(secretPath)` rejects an empty path and obtains the script's OAuth token. It
  GETs `https://secretmanager.googleapis.com/v1/<path>:access` with a bearer
  `Authorization` header and parses the JSON reply. Transport and parse errors become
  "access denied", "not found" or the raw error text. It then checks `payload.data`,
  base64-decodes it and turns the bytes into text.
- `_byteToString(bytes)` writes each byte as `%` plus hex digits. It inserts a `0` below
  sixteen and hands the text to `decodeURIComponent`.
- `useSecret(secretPath, callback, ...args)` fetches the secret and calls
  `callback(secret, ...args)`. It refuses to return a result whose `JSON.stringify` text
  contains the secret.

Modules (one file each):

- `Wrappers`: `Option` / `Result`.
- `Text`: `String.prototype.includes`, with an independent "occurs at some index" definition.
- `Hex`: `Number.prototype.toString(16)` on integers, and hex-digit parsing.
- `Utf8`: RFC 3629. It has the encoder of section 3, a decoder that builds each code point
  from its bits, and the byte-range grammar of section 4 as the reference for well-formedness.
- `Uri`: `decodeURIComponent`. A malformed escape or ill-formed UTF-8 gives `None`, which
  stands for a thrown `URIError`.
- `ByteText`: `_byteToString`.
- `SecretFetch`: `getSecret`. The host services are the fields of a `Host` value:
  - `ScriptApp.getOAuthToken`
  - `UrlFetchApp.fetch(...).getContentText()`
  - `Session.getEffectiveUser`
  - `Utilities.base64Decode`
  - the built-ins `JSON.parse` and `JSON.stringify`

  Each is a plain value or a total function. A service that may throw (the token, the fetch,
  the effective user, the base64 decoder, `JSON.parse`) gives a `Result`, and a thrown
  exception is a `Failure` carrying its `toString()`.
- `GuardedUse`: `useSecret`. The callback is a function from the argument list to a result
  or a thrown value. The result serializer is a partial function: `None` is `undefined`.

Notes on what the code does:

- The `code 403` and `code 404` tests run one after the other on the same message, and
  the 404 test runs last. A text that mentions both codes therefore yields the not-found
  message (`ClassifyRequestError`). The effective user is looked up on the 403 path only.
  If that lookup throws, its exception escapes instead of either message.
- The leak check in `useSecret` looks for the secret in the JSON text of the result, not in
  the result itself. `JSON.stringify` escapes `"`, `\` and control characters, so a secret
  that a callback returns unchanged may be missed, e.g. the secret `a"b`. `EmbeddedSecretRefused`
  states the refusal only for a JSON text that embeds the secret verbatim.
- Bytes that are not well-formed UTF-8 make `decodeURIComponent` throw `URIError`
  (`MalformedText`). An exception from the host's base64 decoder propagates unwrapped
  (`Base64Failed`).

## Model

| member | source | states |
|---|---|---|
| `SecretFetch.GetSecret` | Code.ts:49-99 | An empty path fails with "A secretPath is required…" whatever the host does. A token failure throws an `Error` reading "Error generating OAuth Token: " + the cause. A fetch failure at the built request, or a `JSON.parse` failure on its body, gives the classified error, which is the user lookup's own exception when the text mentions "code 403" and that lookup throws. When both succeed, the outcome is the payload check on the parsed reply. A success implies the token, the fetch of exactly `BuildRequest(path, token)` and the parse all succeeded |
| `SecretFetch.BuildRequest` | Code.ts:54-68 | No contract: its body is the model of the URL template and the header object. `BuildRequestRecoverable` states what it promises |
| `SecretFetch.ErrorText` | Code.ts:86 | No contract: its body is the model of `err.toString()` as `_tests.ts` reads it. It gives "Error: " + message for `getSecret`'s own errors, or just "Error" when the message is empty, and "URIError: URI malformed" for the decoding failure. A propagated host exception keeps its own text. `ClassifyRequestError`, `GetSecret`, `DecodePayload` and `NotFoundErrorText` state it for each path |
| `SecretFetch.OnlyTheBuiltRequestIsFetched` | Code.ts:67-72 | The fetch service is consulted at the one request built from the path and token, and not at all for an empty path or a failed token: replacing it by any function that agrees there changes nothing |
| `SecretFetch.BuildRequestRecoverable` | Code.ts:54-68 | The URL is `BaseUrl + path + ":access"`, from which the path is recovered exactly. The headers are exactly one `Authorization: Bearer <token>`, from which the token is recovered exactly |
| `SecretFetch.ClassifyRequestError` | Code.ts:75-86 | "code 403" in the error text with a throwing user lookup gives that lookup's exception, unwrapped. Otherwise "code 404" gives the not-found `Error` "Secret not found. secretPath provided: <path>", also when "code 403" is present. "code 403" alone gives the access-denied `Error` "<user> does not have access to <path> or secret does not exist.". With neither code, an `Error` whose message is the error text unchanged |
| `SecretFetch.UserConsultedOnlyOnForbidden` | Code.ts:78-80 | When the error text does not mention "code 403", the outcome of the effective-user lookup does not affect the error |
| `SecretFetch.FetchEnvelope` | Code.ts:70-87 | Fetch errors and `JSON.parse` errors go through the same classification. When the fetch and the parse both succeed, the result is exactly the parsed body, and a success is only ever that |
| `SecretFetch.FetchAndParseErrorsAlike` | Code.ts:70-87 | A text thrown by the fetch and the same text thrown by `JSON.parse` of a fetched body give the same error, the classification of that text |
| `SecretFetch.DecodePayload` | Code.ts:89-98 | A missing or falsy `payload.data` fails with "Invalid secrets contents. Response from secrets manager: " + newline + indentation + the serialized response (`undefined` if it has none). For a truthy `payload.data`, a base64 exception is passed on unwrapped, bytes that `_byteToString` cannot decode throw "URIError: URI malformed", and otherwise the result is exactly `_byteToString` of the decoded bytes |
| `SecretFetch.EncodedSecret` | Code.ts:89 | No contract: its body is the model of `data?.payload?.data`, and gives `undefined` for anything but an object whose `payload` is an object with a `data` member. `DecodePayload`'s contract states its use |
| `SecretFetch.Truthy` | Code.ts:90 | No contract: its body is JavaScript truthiness for a parsed JSON value, where `null`, `false`, `0` and `""` are falsy. `DecodePayload`'s contract states its use |
| `SecretFetch.StoredSecretComesBack` | Code.ts:89-98 | When the host decoder returns a secret's UTF-8 encoding as unsigned octets (0..255), the secret is returned exactly, e.g. `UNSAFE_SECRET`. With the real host's signed bytes this holds for ASCII secrets only (see `NegativeByteFails`) |
| `SecretFetch.ReturnedSecretIsDecodedBytes` | Code.ts:97-98 | When the host delivers bytes in 0..255, the returned secret's UTF-8 encoding is exactly those bytes |
| `SecretFetch.NotFoundErrorText` | _tests.ts:36-39 | When the fetch throws a text mentioning "code 404" (and the 403-path user lookup, if taken, succeeds), `getSecret` fails and `err.toString()` contains "Error: Secret not found" |
| `ByteText.EscapeOfByte` | Code.ts:105-107 | A byte in 0..255 is written as `%`, its high nibble and its low nibble in lower-case hex. The inserted `0` appears exactly when the byte is below 16 |
| `ByteText.Escape` | Code.ts:105-107 | No contract: its body is the model of the `'%0'`/`'%'` choice plus `toString(16)`. `EscapeOfByte` and `EscapeSplits` state what it writes |
| `ByteText.PercentEncode` | Code.ts:103-108 | No contract: its body is the model of the loop that accumulates the escapes in byte order. `PercentEncodeLayout`, `UnescapePercentEncode` and `UnescapeIffNonNegative` state its shape |
| `ByteText.ByteToString` | Code.ts:102-111 | No contract: its body is `_byteToString`, `decodeURIComponent` of the escapes. Its properties are the `ByteToString…` lemmas and `NegativeByteFails` |
| `ByteText.PercentEncodeLayout` | Code.ts:103-108 | The intermediate text has length 3·n, and characters 3i, 3i+1, 3i+2 are `%`, the high and the low hex digit of byte i |
| `ByteText.UnescapePercentEncode` | Code.ts:104-110 | The intermediate text of bytes in 0..255 splits into exactly one escape per byte, carrying that byte |
| `ByteText.ByteToStringIsUtf8Decode` | Code.ts:102-111 | For bytes in 0..255, `_byteToString` is UTF-8 decoding (RFC 3629, section 3) |
| `ByteText.ByteToStringRoundTrip` | Code.ts:102-111 | The UTF-8 encoding of any string converts back to that string |
| `ByteText.ByteToStringInverse` | Code.ts:102-111 | Any string the bytes convert to has those bytes as its UTF-8 encoding |
| `ByteText.ByteToStringSucceedsIffWellFormed` | Code.ts:102-111 | The conversion succeeds exactly when the bytes match the `UTF8-octets` grammar of RFC 3629, section 4 |
| `ByteText.ByteToStringAscii` | Code.ts:102-111 | All-ASCII bytes give one character per byte, with that byte's code |
| `ByteText.EscapeSplits` | Code.ts:105-107 | The escape of a negative byte (`%0-…`) is malformed. The escape of any non-negative byte splits cleanly |
| `ByteText.UnescapeIffNonNegative` | Code.ts:103-110 | The intermediate text is free of malformed escapes exactly when no byte is negative |
| `ByteText.NegativeByteFails` | Code.ts:102-111 | A single negative byte makes `_byteToString` throw `URIError` |
| `Uri.EscapesDecodeAsUtf8` | Code.ts:110 | A text of escapes only decodes exactly as UTF-8 decodes the escaped octets |
| `Uri.DecodeUriComponent` | Code.ts:110 | No contract: its body is the model of `decodeURIComponent`, which splits into literals and `%XX` escapes and reads runs of escapes as UTF-8. `EscapesDecodeAsUtf8` and `PlainTextUnchanged` state it |
| `Uri.PlainTextUnchanged` | Code.ts:110 | Text without `%` decodes to itself |
| `Utf8.DecodeFirstIffCharAt` | Code.ts:110 | The bit-assembling decoder accepts a character of n octets exactly when the section-4 byte ranges do |
| `Utf8.DecodeIffWellFormed` | Code.ts:110 | UTF-8 decoding succeeds exactly on grammar-well-formed octet sequences |
| `Utf8.EncodeCharDecodes` | Code.ts:110 | The octets written for a character decode back to that character and use up exactly those octets |
| `Utf8.DecodeFirstEncodes` | Code.ts:110 | A decoded character is re-encoded to exactly the octets it was read from |
| `Utf8.DecodeEncode` | Code.ts:110 | Decoding the encoding of a string gives the string |
| `Utf8.EncodeDecode` | Code.ts:110 | Encoding the result of a successful decode gives the octets back |
| `Utf8.DecodeAscii` | Code.ts:110 | Octets below 0x80 decode to one character each |
| `Hex.NatToHexDigits` | Code.ts:106 | `toString(16)` of a non-negative number is all hex digits. It is one digit long exactly below sixteen |
| `Hex.ByteToHex` | Code.ts:106 | For a byte, `toString(16)` is its low nibble below sixteen, and its two nibbles otherwise |
| `Hex.ToHex` | Code.ts:106 | No contract: its body is `Number.prototype.toString(16)` on an integer, with no leading zeros and a leading `-` when negative. `NatToHexDigits` and `ByteToHex` state it |
| `Text.IncludesIffOccurs` | Code.ts:30 | `includes` is true exactly when the searched text occurs at some index |
| `Text.Includes` | Code.ts:30 | No contract: its body is `String.prototype.includes`, a left-to-right scan. `IncludesIffOccurs` relates it to the occurrence definition |
| `Text.IncludesEmpty` | Code.ts:30 | Every text includes the empty string |
| `GuardedUse.CallArguments` | Code.ts:24-25 | The callback receives the secret first, then every extra argument in its original order |
| `GuardedUse.CheckForLeak` | Code.ts:30-37 | An `undefined` serialization fails. Otherwise the call is refused exactly when the JSON text `includes` the secret, and when the text does not include it, the response is returned unchanged |
| `GuardedUse.UseSecret` | Code.ts:19-38 | A `getSecret` failure is passed on, and so is the callback's exception, unwrapped. A success implies the callback was called with (secret, extras…), returned this very value, and its JSON text does not include the secret |
| `GuardedUse.LeakCheckDecides` | Code.ts:30-37 | Once the secret is fetched and the callback returns, `useSecret` fails with the unsafe-usage error exactly when the secret occurs at some index of the result's JSON text. When it occurs nowhere, the result is returned unchanged |
| `GuardedUse.EmptySecretAlwaysRefused` | Code.ts:30-35 | An empty secret makes every serializable result be refused |
| `GuardedUse.EmbeddedSecretRefused` | Code.ts:30-35 | A result whose JSON text embeds the secret verbatim is refused, with the unsafe-usage message |
| `GuardedUse.UnserializableResultFails` | Code.ts:30 | A result whose `JSON.stringify` is `undefined` makes the call fail (`.includes` on `undefined`) |

## Left out

- Host services are inputs, not models (their outcomes, including their exceptions, are given): the OAuth token, `UrlFetchApp.fetch`, `Session.getEffectiveUser`, `Utilities.base64Decode`, `JSON.parse` and `JSON.stringify`. Base64 and JSON are foreign code and are not re-implemented.
- `ByteText.ByteToString` and the lemmas about it assume bytes in 0..255. `Utilities.base64Decode` in the real host returns signed bytes (-128..127), and host byte semantics are not modelled. What a negative byte does is still stated: the escape becomes `%0-…` and the call throws `URIError` (`NegativeByteFails`). A byte of 256 or more is written with extra hex digits after its two-digit escape. `EscapeSplits` and `UnescapeIffNonNegative` state that such an escape still splits cleanly, but no lemma states what the text decodes to.
- `SecretFetch.StoredSecretComesBack`: the round trip is stated for a decoder that returns unsigned octets. `Utilities.base64Decode` returns signed bytes, so on the real host a secret with a non-ASCII character throws `URIError` (`NegativeByteFails`).
- Strings are sequences of Unicode scalar values. JavaScript strings are UTF-16, so a supplementary character counts as one element here and as two code units there, and lone surrogates cannot be represented.
- `GuardedUse.UseSecret`: a `JSON.stringify` that throws (cyclic structures, BigInt) is folded into `None`, the `undefined` case, so both fail but with different exceptions in JavaScript.
- `SecretFetch.GetSecret`: a `secretPath` of `null` or `undefined` is not modelled. The parameter is typed `string`, and the empty string is its only falsy value.
- `SecretFetch.DecodePayload`: a truthy `payload.data` that is not a string is handed to the host decoder as it is. What the host does with it is part of the host input.
- JSON numbers are reals. `JSON.parse` never produces `NaN`, so truthiness is "not zero".
- The parts-form path builder, `fetchWithBasicAuth`, `fetchWithBearerToken` and the property-store test hook. Their source is not part of this model: `Code.ts` does not contain them.
- `_tests.ts` as a whole, which is live-environment test scaffolding. Only its "Secret not found" expectation is stated (`NotFoundErrorText`).

=== FILE: byte_text.dfy ===
/** `_byteToString`: each byte is written as `%` and its hex digits (a `0` is inserted
    below sixteen), and the resulting text is handed to `decodeURIComponent`. Bytes are
    plain integers here, as in JavaScript; the properties hold for bytes in 0..255, and a
    negative byte is shown to make the call throw `URIError`. */
module ByteText {
  import opened Wrappers
  import Hex
  import Utf8
  import Uri

  /** The escape written for one byte: `'%0'` or `'%'` followed by `byte.toString(16)`. */
  function Escape(b: int): string
  {
    (if b < 16 then "%0" else "%") + Hex.ToHex(b)
  }

  /** A byte in 0..255 is always written as three characters, `%` and two lower-case hex
      digits, the first of them `0` exactly when the byte is below sixteen. */
  lemma EscapeOfByte(b: Utf8.Byte)
    ensures Escape(b) == ['%', Hex.Digit(b / 16), Hex.Digit(b % 16)]
    ensures Escape(b)[1] == '0' <==> b < 16
  {
    Hex.ByteToHex(b);
  }

  /** The text the loop accumulates: the escapes of the bytes, in order. */
  function PercentEncode(bytes: seq<int>): string
  {
    if bytes == [] then "" else Escape(bytes[0]) + PercentEncode(bytes[1..])
  }

  /** `_byteToString(bytes)`, or `None` where `decodeURIComponent` throws `URIError`. */
  function ByteToString(bytes: seq<int>): Option<string>
  {
    Uri.DecodeUriComponent(PercentEncode(bytes))
  }

  /** For bytes in 0..255 the intermediate text is three characters per byte: `%`, the
      high nibble and the low nibble, so the second character is `0` exactly below sixteen. */
  lemma {:induction false} PercentEncodeLayout(bytes: seq<Utf8.Byte>)
    ensures |PercentEncode(bytes)| == 3 * |bytes|
    ensures forall i :: 0 <= i < |bytes| ==>
      && PercentEncode(bytes)[3 * i] == '%'
      && PercentEncode(bytes)[3 * i + 1] == Hex.Digit(bytes[i] / 16)
      && PercentEncode(bytes)[3 * i + 2] == Hex.Digit(bytes[i] % 16)
    decreases |bytes|
  {
    if bytes != [] {
      PercentEncodeLayout(bytes[1..]);
      EscapeOfByte(bytes[0]);
      var e := Escape(bytes[0]);
      var rest := PercentEncode(bytes[1..]);
      forall i | 1 <= i < |bytes|
        ensures && PercentEncode(bytes)[3 * i] == '%'
                && PercentEncode(bytes)[3 * i + 1] == Hex.Digit(bytes[i] / 16)
                && PercentEncode(bytes)[3 * i + 2] == Hex.Digit(bytes[i] % 16)
      {
        assert bytes[1..][i - 1] == bytes[i];
        assert PercentEncode(bytes)[3 * i] == rest[3 * (i - 1)];
        assert PercentEncode(bytes)[3 * i + 1] == rest[3 * (i - 1) + 1];
        assert PercentEncode(bytes)[3 * i + 2] == rest[3 * (i - 1) + 2];
      }
    }
  }

  /** For bytes in 0..255 the intermediate text splits into exactly one escape per byte. */
  lemma {:induction false} UnescapePercentEncode(bytes: seq<Utf8.Byte>)
    ensures Uri.Unescape(PercentEncode(bytes)) == Some(Uri.Escapes(bytes))
    decreases |bytes|
  {
    if bytes == [] {
      assert Uri.Escapes(bytes) == [];
    } else {
      var b := bytes[0];
      var d1, d2 := Hex.Digit(b / 16), Hex.Digit(b % 16);
      var rest := PercentEncode(bytes[1..]);
      EscapeOfByte(b);
      assert PercentEncode(bytes) == ['%', d1, d2] + rest;
      Hex.DigitRoundTrip(b / 16);
      Hex.DigitRoundTrip(b % 16);
      assert Hex.DigitValue(d1) * 16 + Hex.DigitValue(d2) == b;
      Uri.UnescapeEscape(d1, d2, rest);
      UnescapePercentEncode(bytes[1..]);
      assert [Uri.Escaped(b)] + Uri.Escapes(bytes[1..]) == Uri.Escapes(bytes);
    }
  }

  /** For bytes in 0..255, `_byteToString` is UTF-8 decoding. */
  lemma ByteToStringIsUtf8Decode(bytes: seq<Utf8.Byte>)
    ensures ByteToString(bytes) == Utf8.Decode(bytes)
  {
    UnescapePercentEncode(bytes);
    Uri.EscapesDecodeAsUtf8(bytes);
  }

  /** The UTF-8 encoding of any string converts back to that string. */
  lemma ByteToStringRoundTrip(s: string)
    ensures ByteToString(Utf8.Encode(s)) == Some(s)
  {
    ByteToStringIsUtf8Decode(Utf8.Encode(s));
    Utf8.DecodeEncode(s);
  }

  /** Whatever string the bytes convert to, they were its UTF-8 encoding. */
  lemma ByteToStringInverse(bytes: seq<Utf8.Byte>)
    requires ByteToString(bytes).Some?
    ensures Utf8.Encode(ByteToString(bytes).value) == bytes
  {
    ByteToStringIsUtf8Decode(bytes);
    Utf8.EncodeDecode(bytes);
  }

  /** The conversion of bytes in 0..255 succeeds exactly when they are well-formed UTF-8. */
  lemma ByteToStringSucceedsIffWellFormed(bytes: seq<Utf8.Byte>)
    ensures ByteToString(bytes).Some? <==> Utf8.WellFormed(bytes)
  {
    ByteToStringIsUtf8Decode(bytes);
    Utf8.DecodeIffWellFormed(bytes);
  }

  /** All-ASCII bytes give one character per byte, each with the byte's code. */
  lemma ByteToStringAscii(bytes: seq<Utf8.Byte>)
    requires forall i :: 0 <= i < |bytes| ==> bytes[i] < 0x80
    ensures ByteToString(bytes).Some? && |ByteToString(bytes).value| == |bytes|
    ensures forall i :: 0 <= i < |bytes| ==> ByteToString(bytes).value[i] as int == bytes[i]
  {
    ByteToStringIsUtf8Decode(bytes);
    Utf8.DecodeAscii(bytes);
  }

  /** A non-negative byte's escape splits cleanly (one escape, then literal digits when the
      byte exceeds 255); a negative byte's escape, `%0-…`, is malformed. */
  lemma EscapeSplits(b: int, rest: string)
    ensures b < 0 ==> Uri.Unescape(Escape(b) + rest).None?
    ensures b >= 0 ==> (Uri.Unescape(Escape(b) + rest).Some? <==> Uri.Unescape(rest).Some?)
  {
    var s := Escape(b) + rest;
    if b < 0 {
      assert s[0] == '%' && s[2] == '-';
    } else if b < 16 {
      Hex.NatToHexDigits(b);
      assert s == ['%', '0', Hex.NatToHex(b)[0]] + rest;
      Uri.UnescapeEscape('0', Hex.NatToHex(b)[0], rest);
    } else {
      var h := Hex.NatToHex(b);
      Hex.NatToHexDigits(b);
      assert s == ['%', h[0], h[1]] + (h[2..] + rest);
      Uri.UnescapeEscape(h[0], h[1], h[2..] + rest);
      forall k | 0 <= k < |h[2..]| ensures h[2..][k] != '%' {
        assert Hex.IsHexDigit(h[k + 2]);
      }
      Uri.UnescapeLiterals(h[2..], rest);
    }
  }

  /** The intermediate text splits into escapes and literals exactly when no byte is negative. */
  lemma {:induction false} UnescapeIffNonNegative(bytes: seq<int>)
    ensures Uri.Unescape(PercentEncode(bytes)).Some? <==> forall i :: 0 <= i < |bytes| ==> bytes[i] >= 0
    decreases |bytes|
  {
    if bytes != [] {
      EscapeSplits(bytes[0], PercentEncode(bytes[1..]));
      UnescapeIffNonNegative(bytes[1..]);
      assert forall i :: 1 <= i < |bytes| ==> bytes[i] == bytes[1..][i - 1];
    }
  }

  /** A negative byte, as a signed host byte array would deliver for octets from 0x80 up,
      makes `_byteToString` throw. */
  lemma NegativeByteFails(bytes: seq<int>, i: nat)
    requires i < |bytes| && bytes[i] < 0
    ensures ByteToString(bytes).None?
  {
    UnescapeIffNonNegative(bytes);
  }
}

=== FILE: guarded_use.dfy ===
/** `useSecret`: fetches a secret, calls the caller's function with it and the extra
    arguments, and refuses to return a result whose JSON text contains the secret. The
    callback and `JSON.stringify` on its result are inputs; a callback's exception is
    passed through as it is. */
module GuardedUse {
  import opened Wrappers
  import Text
  import SecretFetch

  /** One argument the callback receives: the secret, or one of the caller's extra arguments. */
  datatype Argument<A> = SecretArgument(secret: string) | Extra(value: A)

  /** The reasons `useSecret` throws. */
  datatype UseError<E> =
    | SecretUnavailable(cause: SecretFetch.SecretError)  // thrown by getSecret
    | CallbackThrew(thrown: E)                            // thrown by the callback, not caught
    | NotSerializable                                     // `undefined.includes(…)` is a TypeError
    | UnsafeUsage                                         // the result's JSON contains the secret

  const UnsafeUsageMessage: string :=
    "Unsafe usage of useSecret's function. Response included the secrets content which "
    + "should be avoided. If raw secret value is needed use the getSecret function."

  /** The message of an error `useSecret` throws, where it has one the model knows: the
      unsafe-usage error's text, and for `getSecret`'s errors `SecretFetch.Message` (which,
      for a propagated host exception, is that exception's `toString()` rather than a
      message this code chooses). The callback's own exception and the engine's `TypeError`
      have no message the model fixes. */
  function Message<E>(e: UseError<E>): Option<string>
  {
    match e
    case SecretUnavailable(cause) => Some(SecretFetch.Message(cause))
    case UnsafeUsage => Some(UnsafeUsageMessage)
    case _ => None
  }

  /** The argument list of `callbackFunction(secret, ...callbackArguments)`. */
  function CallArguments<A>(secret: string, extra: seq<A>): (args: seq<Argument<A>>)
    ensures |args| == |extra| + 1
    ensures args[0] == SecretArgument(secret)
    ensures forall i :: 0 <= i < |extra| ==> args[i + 1] == Extra(extra[i])
  {
    [SecretArgument(secret)] + seq(|extra|, i requires 0 <= i < |extra| => Extra(extra[i]))
  }

  /** The leak check on a callback's result: fails when the result serializes to nothing,
      or to text that contains the secret, and otherwise hands the result back. */
  function CheckForLeak<V, E>(secret: string, response: V, serialize: V -> Option<string>): (r: Result<V, UseError<E>>)
    ensures serialize(response).None? ==> r == Failure(NotSerializable)
    ensures serialize(response).Some? ==>
      (r == Failure(UnsafeUsage) <==> Text.Includes(serialize(response).value, secret))
    ensures r.Success? ==>
      r.value == response && serialize(response).Some? && !Text.Includes(serialize(response).value, secret)
    ensures serialize(response).Some? && !Text.Includes(serialize(response).value, secret) ==>
      r == Success(response)
  {
    match serialize(response)
    case None => Failure(NotSerializable)
    case Some(text) =>
      if Text.Includes(text, secret) then Failure(UnsafeUsage) else Success(response)
  }

  /** `useSecret(secretPath, callbackFunction, ...callbackArguments)`. */
  function UseSecret<A, V, E>(
    path: string,
    host: SecretFetch.Host,
    callback: seq<Argument<A>> -> Result<V, E>,
    extra: seq<A>,
    serialize: V -> Option<string>): (r: Result<V, UseError<E>>)
    ensures SecretFetch.GetSecret(path, host).Failure? ==>
      r == Failure(SecretUnavailable(SecretFetch.GetSecret(path, host).error))
    ensures SecretFetch.GetSecret(path, host).Success?
            && callback(CallArguments(SecretFetch.GetSecret(path, host).value, extra)).Failure? ==>
      r == Failure(CallbackThrew(callback(CallArguments(SecretFetch.GetSecret(path, host).value, extra)).error))
    ensures r.Success? ==>
      && SecretFetch.GetSecret(path, host).Success?
      && callback(CallArguments(SecretFetch.GetSecret(path, host).value, extra)) == Success(r.value)
      && serialize(r.value).Some?
      && !Text.Includes(serialize(r.value).value, SecretFetch.GetSecret(path, host).value)
  {
    match SecretFetch.GetSecret(path, host)
    case Failure(e) => Failure(SecretUnavailable(e))
    case Success(secret) =>
      match callback(CallArguments(secret, extra))
      case Failure(thrown) => Failure(CallbackThrew(thrown))
      case Success(response) =>
        CheckForLeak(secret, response, serialize)
  }

  /** Once the secret is fetched and the callback returns, the call is refused exactly
      when the secret occurs somewhere in the result's JSON text, and otherwise returns the
      result unchanged. */
  lemma LeakCheckDecides<A, V, E>(
    path: string, host: SecretFetch.Host, callback: seq<Argument<A>> -> Result<V, E>,
    extra: seq<A>, serialize: V -> Option<string>, secret: string, response: V, text: string)
    requires SecretFetch.GetSecret(path, host) == Success(secret)
    requires callback(CallArguments(secret, extra)) == Success(response)
    requires serialize(response) == Some(text)
    ensures UseSecret(path, host, callback, extra, serialize) == Failure(UnsafeUsage)
            <==> exists i: nat :: Text.OccursAt(text, secret, i)
    ensures (forall i: nat :: !Text.OccursAt(text, secret, i)) ==>
            UseSecret(path, host, callback, extra, serialize) == Success(response)
  {
    Text.IncludesIffOccurs(text, secret);
  }

  /** An empty secret is contained in every text, so every serializable result is refused. */
  lemma EmptySecretAlwaysRefused<A, V, E>(
    path: string, host: SecretFetch.Host, callback: seq<Argument<A>> -> Result<V, E>,
    extra: seq<A>, serialize: V -> Option<string>, response: V)
    requires SecretFetch.GetSecret(path, host) == Success("")
    requires callback(CallArguments("", extra)) == Success(response)
    requires serialize(response).Some?
    ensures UseSecret(path, host, callback, extra, serialize) == Failure(UnsafeUsage)
  {
  }

  /** A result whose JSON text embeds the secret verbatim is refused. */
  lemma EmbeddedSecretRefused<A, V, E>(
    path: string, host: SecretFetch.Host, callback: seq<Argument<A>> -> Result<V, E>,
    extra: seq<A>, serialize: V -> Option<string>, secret: string, response: V, before: string, after: string)
    requires SecretFetch.GetSecret(path, host) == Success(secret)
    requires callback(CallArguments(secret, extra)) == Success(response)
    requires serialize(response) == Some(before + secret + after)
    ensures UseSecret(path, host, callback, extra, serialize) == Failure(UnsafeUsage)
    ensures Message(UseSecret(path, host, callback, extra, serialize).error) == Some(UnsafeUsageMessage)
  {
    Text.IncludesInfix(before, secret, after);
  }

  /** A result that serializes to nothing makes the call fail. */
  lemma UnserializableResultFails<A, V, E>(
    path: string, host: SecretFetch.Host, callback: seq<Argument<A>> -> Result<V, E>,
    extra: seq<A>, serialize: V -> Option<string>, secret: string, response: V)
    requires SecretFetch.GetSecret(path, host) == Success(secret)
    requires callback(CallArguments(secret, extra)) == Success(response)
    requires serialize(response).None?
    ensures UseSecret(path, host, callback, extra, serialize) == Failure(NotSerializable)
  {
  }
}

=== FILE: hex.dfy ===
/** Hexadecimal digits: JavaScript's `Number.prototype.toString(16)` on integers, and the
    digit parsing `decodeURIComponent` applies to a `%XX` escape. */
module Hex {

  /** The lower-case digit `toString(16)` writes for a value below sixteen. */
  function Digit(d: nat): (c: char)
    requires d < 16
  {
    if d < 10 then ('0' as int + d) as char else ('a' as int + d - 10) as char
  }

  /** A character `decodeURIComponent` accepts as a hex digit (either case). */
  predicate IsHexDigit(c: char) {
    '0' <= c <= '9' || 'a' <= c <= 'f' || 'A' <= c <= 'F'
  }

  /** The value of a hex digit. */
  function DigitValue(c: char): (d: nat)
    requires IsHexDigit(c)
    ensures d < 16
  {
    if '0' <= c <= '9' then c as int - '0' as int
    else if 'a' <= c <= 'f' then c as int - 'a' as int + 10
    else c as int - 'A' as int + 10
  }

  /** Reading back the digit written for `d` gives `d`. */
  lemma DigitRoundTrip(d: nat)
    requires d < 16
    ensures IsHexDigit(Digit(d)) && DigitValue(Digit(d)) == d
  {
  }

  /** `n.toString(16)` for a non-negative integer: no leading zeros, "0" for zero. */
  function NatToHex(n: nat): (s: string)
    decreases n
  {
    if n < 16 then [Digit(n)] else NatToHex(n / 16) + [Digit(n % 16)]
  }

  /** `n.toString(16)` for any integer: a negative value gets a leading minus sign. */
  function ToHex(n: int): (s: string)
  {
    if n < 0 then "-" + NatToHex(-n) else NatToHex(n)
  }

  /** Every character of a non-negative number's hex text is a digit, and the text is
      one character long exactly when the number is below sixteen. */
  lemma {:induction false} NatToHexDigits(n: nat)
    ensures |NatToHex(n)| >= 1
    ensures |NatToHex(n)| == 1 <==> n < 16
    ensures forall k :: 0 <= k < |NatToHex(n)| ==> IsHexDigit(NatToHex(n)[k])
    decreases n
  {
    DigitRoundTrip(n % 16);
    if n >= 16 {
      NatToHexDigits(n / 16);
    }
  }

  /** A value that fits in one byte is written with one digit below sixteen and two
      digits otherwise: its high and its low nibble. */
  lemma ByteToHex(b: nat)
    requires b < 256
    ensures b < 16 ==> ToHex(b) == [Digit(b)]
    ensures 16 <= b ==> ToHex(b) == [Digit(b / 16), Digit(b % 16)]
  {
    if 16 <= b {
      assert NatToHex(b / 16) == [Digit(b / 16)];
    }
  }
}

=== FILE: secret_fetch.dfy ===
/** `getSecret`: reads one secret version from the secret manager's REST API. The host
    services it calls (the OAuth token, the HTTP fetch, the effective user, base64
    decoding) and the JSON built-ins are inputs, gathered in `Host`. */
module SecretFetch {
  import opened Wrappers
  import Text
  import Utf8
  import ByteText

  const BaseUrl: string := "https://secretmanager.googleapis.com/v1/"
  const AccessSuffix: string := ":access"
  const AuthorizationHeader: string := "Authorization"
  const BearerPrefix: string := "Bearer "

  /** What is handed to `UrlFetchApp.fetch`: the URL and the `headers` option (no other
      option is set, so the method is the default GET). */
  datatype Request = Request(url: string, headers: map<string, string>)

  /** A value `JSON.parse` can produce. Numbers are kept as reals: only whether they are
      zero matters here. */
  datatype Json =
    | JNull
    | JBool(b: bool)
    | JNumber(n: real)
    | JString(s: string)
    | JArray(items: seq<Json>)
    | JObject(members: map<string, Json>)

  /** The host services and built-ins `getSecret` relies on, each as the value or the
      function it behaves as. A `Failure` carries the thrown error's `toString()`. */
  datatype Host = Host(
    oauthToken: Result<string, string>,          // ScriptApp.getOAuthToken()
    fetch: Request -> Result<string, string>,    // UrlFetchApp.fetch(...).getContentText()
    parse: string -> Result<Json, string>,       // JSON.parse
    effectiveUser: Result<string, string>,       // `${Session.getEffectiveUser()}`
    stringify: Json -> Option<string>,           // JSON.stringify; None is `undefined`
    base64Decode: Json -> Result<seq<int>, string>) // Utilities.base64Decode

  /** The reasons `getSecret` throws. */
  datatype SecretError =
    | MissingPath
    | TokenUnavailable(cause: string)
    | AccessDenied(user: string, path: string)
    | NotFound(path: string)
    | RequestFailed(cause: string)
    | InvalidContents(response: string)
    | Base64Failed(thrown: string)
    | UserLookupFailed(thrown: string)
    | MalformedText

  /** The message of the error thrown for `e`. `Base64Failed` and `UserLookupFailed` are the
      host's own exceptions, propagated unwrapped; for them this is their `toString()`, the
      only thing the model keeps of them, not their `message`. */
  function Message(e: SecretError): string
  {
    match e
    case MissingPath => "A secretPath is required for this function."
    case TokenUnavailable(cause) => "Error generating OAuth Token: " + cause
    case AccessDenied(user, path) => user + " does not have access to " + path + " or secret does not exist."
    case NotFound(path) => "Secret not found. secretPath provided: " + path
    case RequestFailed(cause) => cause
    case InvalidContents(response) =>
      "Invalid secrets contents. Response from secrets manager: \n            " + response
    case Base64Failed(thrown) => thrown
    case UserLookupFailed(thrown) => thrown
    case MalformedText => "URI malformed"
  }

  /** `err.toString()` of the thrown error, as a caller sees it: `getSecret`'s own errors are
      `Error`s, `decodeURIComponent` throws a `URIError`, and a propagated host exception
      reads as it did when the host threw it. `Error.prototype.toString` leaves out the
      `": "` when the message is empty. */
  function ErrorText(e: SecretError): string
  {
    match e
    case Base64Failed(thrown) => thrown
    case UserLookupFailed(thrown) => thrown
    case MalformedText => "URIError: " + Message(e)
    case _ => if Message(e) == "" then "Error" else "Error: " + Message(e)
  }

  /** A value in a template literal: `undefined` when `JSON.stringify` gives nothing. */
  function Interpolate(s: Option<string>): string
  {
    match s
    case Some(t) => t
    case None => "undefined"
  }

  /** The request for one secret path: its access URL and the bearer-token header. */
  function BuildRequest(path: string, token: string): Request
  {
    Request(BaseUrl + path + AccessSuffix, map[AuthorizationHeader := BearerPrefix + token])
  }

  /** The secret path an access URL names, if it is one. */
  function AccessedPath(url: string): Option<string>
  {
    if |BaseUrl| + |AccessSuffix| <= |url|
       && url[..|BaseUrl|] == BaseUrl
       && url[|url| - |AccessSuffix|..] == AccessSuffix
    then Some(url[|BaseUrl|..|url| - |AccessSuffix|])
    else None
  }

  /** The token carried by headers made of a single bearer `Authorization` header. */
  function BearerToken(headers: map<string, string>): Option<string>
  {
    if headers.Keys == {AuthorizationHeader}
       && |BearerPrefix| <= |headers[AuthorizationHeader]|
       && headers[AuthorizationHeader][..|BearerPrefix|] == BearerPrefix
    then Some(headers[AuthorizationHeader][|BearerPrefix|..])
    else None
  }

  /** The request names exactly the path asked for, and its only header carries exactly the
      token obtained; so different paths or tokens never give the same request. */
  lemma BuildRequestRecoverable(path: string, token: string)
    ensures AccessedPath(BuildRequest(path, token).url) == Some(path)
    ensures BearerToken(BuildRequest(path, token).headers) == Some(token)
  {
  }

  /** The error raised when the fetch or the parse throws: the thrown text, replaced by the
      access-denied message when it mentions `code 403`, and that in turn by the not-found
      message when it mentions `code 404`. The effective user is looked up on the 403 path
      only, before the 404 test, so an exception from that lookup escapes in place of
      either message. */
  function ClassifyRequestError(errorText: string, user: Result<string, string>, path: string): (e: SecretError)
    ensures Text.Includes(errorText, "code 403") && user.Failure? ==>
      e == UserLookupFailed(user.error) && ErrorText(e) == user.error
    ensures Text.Includes(errorText, "code 404") && !(Text.Includes(errorText, "code 403") && user.Failure?) ==>
      e == NotFound(path) && Message(e) == "Secret not found. secretPath provided: " + path
    ensures !Text.Includes(errorText, "code 404") && Text.Includes(errorText, "code 403") && user.Success? ==>
      e == AccessDenied(user.value, path)
      && Message(e) == user.value + " does not have access to " + path + " or secret does not exist."
    ensures !Text.Includes(errorText, "code 404") && !Text.Includes(errorText, "code 403") ==>
      e == RequestFailed(errorText) && Message(e) == errorText
      && ErrorText(e) == (if errorText == "" then "Error" else "Error: " + errorText)
  {
    if Text.Includes(errorText, "code 403") && user.Failure? then UserLookupFailed(user.error)
    else
      var afterForbidden :=
        if Text.Includes(errorText, "code 403") then AccessDenied(user.value, path) else RequestFailed(errorText);
      if Text.Includes(errorText, "code 404") then NotFound(path) else afterForbidden
  }

  /** The effective user is consulted only when the thrown text mentions `code 403`: any
      other lookup outcome gives the same error otherwise. */
  lemma UserConsultedOnlyOnForbidden(errorText: string, user: Result<string, string>,
                                     other: Result<string, string>, path: string)
    requires !Text.Includes(errorText, "code 403")
    ensures ClassifyRequestError(errorText, user, path) == ClassifyRequestError(errorText, other, path)
  {
  }

  /** `data?.payload?.data`: only objects have members; anything else gives `undefined`. */
  function EncodedSecret(data: Json): Option<Json>
  {
    match data
    case JObject(m) =>
      if "payload" in m && m["payload"].JObject? && "data" in m["payload"].members
      then Some(m["payload"].members["data"])
      else None
    case _ => None
  }

  /** JavaScript truthiness of a parsed JSON value. */
  predicate Truthy(v: Json)
  {
    match v
    case JNull => false
    case JBool(b) => b
    case JNumber(n) => n != 0.0
    case JString(s) => s != ""
    case _ => true
  }

  /** The try block: fetch the access URL and parse the body; a failure of either goes
      through the same error classification. */
  function FetchEnvelope(path: string, token: string, host: Host): (r: Result<Json, SecretError>)
    ensures host.fetch(BuildRequest(path, token)).Failure? ==>
      r == Failure(ClassifyRequestError(host.fetch(BuildRequest(path, token)).error, host.effectiveUser, path))
    ensures host.fetch(BuildRequest(path, token)).Success?
            && host.parse(host.fetch(BuildRequest(path, token)).value).Failure? ==>
      r == Failure(ClassifyRequestError(
             host.parse(host.fetch(BuildRequest(path, token)).value).error, host.effectiveUser, path))
    ensures host.fetch(BuildRequest(path, token)).Success?
            && host.parse(host.fetch(BuildRequest(path, token)).value).Success? ==>
      r == Success(host.parse(host.fetch(BuildRequest(path, token)).value).value)
    ensures r.Success? ==>
      host.fetch(BuildRequest(path, token)).Success?
      && host.parse(host.fetch(BuildRequest(path, token)).value) == Success(r.value)
  {
    match host.fetch(BuildRequest(path, token))
    case Failure(thrown) => Failure(ClassifyRequestError(thrown, host.effectiveUser, path))
    case Success(body) =>
      match host.parse(body)
      case Failure(thrown) => Failure(ClassifyRequestError(thrown, host.effectiveUser, path))
      case Success(data) => Success(data)
  }

  /** The fetch and the parse sit in one `try`: a text thrown by the fetch and the same
      text thrown by the parse of a fetched body lead to the same error. */
  lemma FetchAndParseErrorsAlike(path: string, token: string, host: Host, body: string, thrown: string)
    requires host.fetch(BuildRequest(path, token)) == Failure(thrown)
    ensures var other := host.(fetch := _ => Success(body), parse := _ => Failure(thrown));
      FetchEnvelope(path, token, other) == FetchEnvelope(path, token, host)
      && FetchEnvelope(path, token, host) == Failure(ClassifyRequestError(thrown, host.effectiveUser, path))
  {
  }

  /** Everything after the parse: check that `payload.data` is there, base64-decode it and
      turn the bytes into text. */
  function DecodePayload(data: Json, host: Host): (r: Result<string, SecretError>)
    ensures (EncodedSecret(data).None? || !Truthy(EncodedSecret(data).value)) ==>
      r == Failure(InvalidContents(Interpolate(host.stringify(data))))
      && Message(r.error) ==
        "Invalid secrets contents. Response from secrets manager: \n            " + Interpolate(host.stringify(data))
    ensures EncodedSecret(data).Some? && Truthy(EncodedSecret(data).value)
            && host.base64Decode(EncodedSecret(data).value).Failure? ==>
      r == Failure(Base64Failed(host.base64Decode(EncodedSecret(data).value).error))
      && ErrorText(r.error) == host.base64Decode(EncodedSecret(data).value).error
    ensures EncodedSecret(data).Some? && Truthy(EncodedSecret(data).value)
            && host.base64Decode(EncodedSecret(data).value).Success?
            && ByteText.ByteToString(host.base64Decode(EncodedSecret(data).value).value).None? ==>
      r == Failure(MalformedText) && ErrorText(r.error) == "URIError: URI malformed"
    ensures EncodedSecret(data).Some? && Truthy(EncodedSecret(data).value)
            && host.base64Decode(EncodedSecret(data).value).Success?
            && ByteText.ByteToString(host.base64Decode(EncodedSecret(data).value).value).Some? ==>
      r == Success(ByteText.ByteToString(host.base64Decode(EncodedSecret(data).value).value).value)
    ensures r.Success? ==>
      EncodedSecret(data).Some? && Truthy(EncodedSecret(data).value)
      && host.base64Decode(EncodedSecret(data).value).Success?
      && ByteText.ByteToString(host.base64Decode(EncodedSecret(data).value).value) == Some(r.value)
  {
    var encoded := EncodedSecret(data);
    if encoded.None? || !Truthy(encoded.value) then
      Failure(InvalidContents(Interpolate(host.stringify(data))))
    else
      match host.base64Decode(encoded.value)
      case Failure(thrown) => Failure(Base64Failed(thrown))
      case Success(bytes) =>
        match ByteText.ByteToString(bytes)
        case None => Failure(MalformedText)
        case Some(secret) => Success(secret)
  }

  /** `getSecret(secretPath)`. Past the token, the outcome is that of the `try` block
      (`FetchEnvelope`, whose contract splits the fetch from the parse), then of the
      payload check. */
  function GetSecret(path: string, host: Host): (r: Result<string, SecretError>)
    ensures path == "" ==> r == Failure(MissingPath)
    ensures path != "" && host.oauthToken.Failure? ==>
      r == Failure(TokenUnavailable(host.oauthToken.error))
      && ErrorText(r.error) == "Error: Error generating OAuth Token: " + host.oauthToken.error
    ensures path != "" && host.oauthToken.Success?
            && FetchEnvelope(path, host.oauthToken.value, host).Failure? ==>
      r == Failure(FetchEnvelope(path, host.oauthToken.value, host).error)
    ensures path != "" && host.oauthToken.Success?
            && FetchEnvelope(path, host.oauthToken.value, host).Success? ==>
      r == DecodePayload(FetchEnvelope(path, host.oauthToken.value, host).value, host)
    ensures r.Success? ==>
      path != "" && host.oauthToken.Success? && FetchEnvelope(path, host.oauthToken.value, host).Success?
  {
    if path == "" then Failure(MissingPath)
    else
      match host.oauthToken
      case Failure(thrown) =>
        assert Message(TokenUnavailable(thrown)) != "" by {
          assert |Message(TokenUnavailable(thrown))| >= |"Error generating OAuth Token: "|;
        }
        Failure(TokenUnavailable(thrown))
      case Success(token) =>
        match FetchEnvelope(path, token, host)
        case Failure(e) => Failure(e)
        case Success(data) => DecodePayload(data, host)
  }

  /** The fetch is consulted at one request only: any other fetch function that answers
      that request the same way gives the same outcome. With an empty path or no token
      the fetch is not consulted at all. */
  lemma OnlyTheBuiltRequestIsFetched(path: string, host: Host, fetch: Request -> Result<string, string>)
    requires path != "" && host.oauthToken.Success? ==>
      fetch(BuildRequest(path, host.oauthToken.value)) == host.fetch(BuildRequest(path, host.oauthToken.value))
    ensures GetSecret(path, host.(fetch := fetch)) == GetSecret(path, host)
  {
  }

  /** A secret stored as the base64 of its UTF-8 encoding comes back exactly. */
  lemma StoredSecretComesBack(path: string, host: Host, data: Json, secret: string)
    requires path != "" && host.oauthToken.Success?
    requires FetchEnvelope(path, host.oauthToken.value, host) == Success(data)
    requires EncodedSecret(data).Some? && Truthy(EncodedSecret(data).value)
    requires host.base64Decode(EncodedSecret(data).value) == Success(Utf8.Encode(secret))
    ensures GetSecret(path, host) == Success(secret)
  {
    ByteText.ByteToStringRoundTrip(secret);
  }

  /** A returned secret is the text whose UTF-8 encoding the host decoded, when the host
      delivered bytes in 0..255. */
  lemma ReturnedSecretIsDecodedBytes(path: string, host: Host, data: Json)
    requires path != "" && host.oauthToken.Success?
    requires FetchEnvelope(path, host.oauthToken.value, host) == Success(data)
    requires GetSecret(path, host).Success?
    requires forall i :: 0 <= i < |host.base64Decode(EncodedSecret(data).value).value| ==>
      0 <= host.base64Decode(EncodedSecret(data).value).value[i] < 256
    ensures Utf8.Encode(GetSecret(path, host).value) == host.base64Decode(EncodedSecret(data).value).value
  {
    var bytes: seq<Utf8.Byte> := host.base64Decode(EncodedSecret(data).value).value;
    ByteText.ByteToStringInverse(bytes);
  }

  /** The text of a not-found error starts with `Error: Secret not found`. The literals
      are split one step at a time because the solver does not relate `+` of string
      literals to a longer literal on its own. */
  lemma NotFoundTextStart(path: string)
    ensures Text.Includes(ErrorText(NotFound(path)), "Error: Secret not found")
  {
    var rest := ". secretPath provided: " + path;
    var m := Message(NotFound(path));
    assert m == "Secret not found. secretPath provided: " + path;
    assert "Secret not found. secretPath provided: " == "Secret not found" + ". secretPath provided: ";
    assert m == "Secret not found" + rest;
    assert ErrorText(NotFound(path)) == "Error: " + m;
    assert "Error: " + ("Secret not found" + rest) == ("Error: " + "Secret not found") + rest;
    assert "Error: " + "Secret not found" == "Error: Secret not found";
    Text.IncludesPrefix("Error: Secret not found", rest);
  }

  /** When the fetch throws a text mentioning `code 404` (and the user lookup on the 403
      path, if taken, succeeds), `getSecret` throws an error that reads
      `Error: Secret not found…`. */
  lemma NotFoundErrorText(path: string, host: Host)
    requires path != "" && host.oauthToken.Success?
    requires host.fetch(BuildRequest(path, host.oauthToken.value)).Failure?
    requires Text.Includes(host.fetch(BuildRequest(path, host.oauthToken.value)).error, "code 404")
    requires !(Text.Includes(host.fetch(BuildRequest(path, host.oauthToken.value)).error, "code 403")
               && host.effectiveUser.Failure?)
    ensures GetSecret(path, host).Failure?
    ensures Text.Includes(ErrorText(GetSecret(path, host).error), "Error: Secret not found")
  {
    assert GetSecret(path, host) == Failure(NotFound(path));
    NotFoundTextStart(path);
  }
}

=== FILE: text.dfy ===
/** String search as JavaScript's `String.prototype.includes` performs it. */
module Text {

  /** `t` occurs in `s` starting at index `i`. */
  predicate OccursAt(s: string, t: string, i: nat) {
    i + |t| <= |s| && s[i..i + |t|] == t
  }

  /** `s.includes(t)`: scans `s` from the left for an occurrence of `t`. */
  function Includes(s: string, t: string): bool
    decreases |s|
  {
    if |t| <= |s| && s[..|t|] == t then true
    else if |s| == 0 then false
    else Includes(s[1..], t)
  }

  /** The scan finds `t` exactly when `t` occurs somewhere in `s`. */
  lemma IncludesIffOccurs(s: string, t: string)
    ensures Includes(s, t) <==> exists i: nat :: OccursAt(s, t, i)
  {
    if Includes(s, t) {
      var i := IncludesGivesOccurrence(s, t);
    } else {
      forall i: nat | OccursAt(s, t, i) ensures false {
        OccurrenceGivesIncludes(s, t, i);
      }
    }
  }

  /** When the scan succeeds it has found an occurrence. */
  lemma {:induction false} IncludesGivesOccurrence(s: string, t: string) returns (i: nat)
    requires Includes(s, t)
    ensures OccursAt(s, t, i)
    decreases |s|
  {
    if |t| <= |s| && s[..|t|] == t {
      i := 0;
    } else {
      var j := IncludesGivesOccurrence(s[1..], t);
      assert s[1..][j..j + |t|] == s[j + 1..j + 1 + |t|];
      i := j + 1;
    }
  }

  /** The scan never misses an occurrence. */
  lemma {:induction false} OccurrenceGivesIncludes(s: string, t: string, i: nat)
    requires OccursAt(s, t, i)
    ensures Includes(s, t)
    decreases i
  {
    if i > 0 && !(|t| <= |s| && s[..|t|] == t) {
      assert s[1..][i - 1..i - 1 + |t|] == s[i..i + |t|];
      OccurrenceGivesIncludes(s[1..], t, i - 1);
    }
  }

  /** Every string includes the empty string. */
  lemma IncludesEmpty(s: string)
    ensures Includes(s, "")
  {
  }

  /** A string includes each of its prefixes. */
  lemma IncludesPrefix(t: string, rest: string)
    ensures Includes(t + rest, t)
  {
  }

  /** A string includes every infix of itself. */
  lemma IncludesInfix(a: string, t: string, b: string)
    ensures Includes(a + t + b, t)
  {
    var s := a + t + b;
    assert s[|a|..|a| + |t|] == t;
    assert OccursAt(s, t, |a|);
    IncludesIffOccurs(s, t);
  }
}

=== FILE: uri.dfy ===
/** JavaScript's `decodeURIComponent`: every `%XX` escape stands for one octet, runs of
    escaped octets are read as UTF-8, and any other character stands for itself. An
    escape that is cut short or not hexadecimal, and escaped octets that are not
    well-formed UTF-8, make it throw `URIError`, modelled as `None`. */
module Uri {
  import opened Wrappers
  import Hex
  import Utf8

  /** One item of a URI component: a literal character, or a `%XX` escape and its octet. */
  datatype Item = Literal(c: char) | Escaped(octet: Utf8.Byte)

  /** Puts `x` in front of a sequence that may be missing. */
  function Prepend<T>(x: T, r: Option<seq<T>>): Option<seq<T>>
  {
    match r
    case None => None
    case Some(xs) => Some([x] + xs)
  }

  /** Splits `s` into literals and escapes, or `None` when a `%` is not followed by two
      hex digits. */
  function Unescape(s: string): Option<seq<Item>>
    decreases |s|
  {
    if s == [] then Some([])
    else if s[0] != '%' then Prepend(Literal(s[0]), Unescape(s[1..]))
    else if |s| < 3 || !Hex.IsHexDigit(s[1]) || !Hex.IsHexDigit(s[2]) then None
    else Prepend(Escaped(Hex.DigitValue(s[1]) * 16 + Hex.DigitValue(s[2])), Unescape(s[3..]))
  }

  /** The octets of the escapes at the head of `items`, up to the first literal. */
  function LeadingOctets(items: seq<Item>): (bs: seq<Utf8.Byte>)
    ensures |bs| <= |items|
    ensures forall k :: 0 <= k < |bs| ==> items[k] == Escaped(bs[k])
    ensures |bs| < |items| ==> items[|bs|].Literal?
  {
    if items == [] || items[0].Literal? then [] else [items[0].octet] + LeadingOctets(items[1..])
  }

  /** Decodes the items: a literal stands for itself; an escape starts a UTF-8 character
      whose octets must all be escapes. */
  function DecodeItems(items: seq<Item>): Option<string>
    decreases |items|
  {
    if items == [] then Some([])
    else match items[0]
      case Literal(c) => Prepend(c, DecodeItems(items[1..]))
      case Escaped(_) =>
        match Utf8.DecodeFirst(LeadingOctets(items))
        case None => None
        case Some((c, n)) => Prepend(c, DecodeItems(items[n..]))
  }

  /** `decodeURIComponent(s)`, or `None` where it throws `URIError`. */
  function DecodeUriComponent(s: string): Option<string>
  {
    match Unescape(s)
    case None => None
    case Some(items) => DecodeItems(items)
  }

  /** The items of a run of escapes, one per octet. */
  function Escapes(bs: seq<Utf8.Byte>): seq<Item>
  {
    seq(|bs|, k requires 0 <= k < |bs| => Escaped(bs[k]))
  }

  /** A run made only of escapes decodes exactly as UTF-8 decodes its octets. */
  lemma {:induction false} EscapesDecodeAsUtf8(bs: seq<Utf8.Byte>)
    ensures DecodeItems(Escapes(bs)) == Utf8.Decode(bs)
    decreases |bs|
  {
    if bs != [] {
      var items := Escapes(bs);
      assert LeadingOctets(items) == bs;
      match Utf8.DecodeFirst(bs)
      case None =>
      case Some((c, n)) =>
        assert items[n..] == Escapes(bs[n..]);
        EscapesDecodeAsUtf8(bs[n..]);
    }
  }

  /** A string without `%` passes through unchanged. */
  lemma {:induction false} PlainTextUnchanged(s: string)
    requires forall k :: 0 <= k < |s| ==> s[k] != '%'
    ensures DecodeUriComponent(s) == Some(s)
    decreases |s|
  {
    if s != [] {
      PlainTextUnchanged(s[1..]);
      var items := Unescape(s[1..]).value;
      assert Unescape(s) == Some([Literal(s[0])] + items);
      assert ([Literal(s[0])] + items)[1..] == items;
      assert [s[0]] + s[1..] == s;
    }
  }

  /** A well-formed escape in front of `rest` adds one octet in front of its items. */
  lemma UnescapeEscape(d1: char, d2: char, rest: string)
    requires Hex.IsHexDigit(d1) && Hex.IsHexDigit(d2)
    ensures Unescape(['%', d1, d2] + rest)
         == Prepend(Escaped(Hex.DigitValue(d1) * 16 + Hex.DigitValue(d2)), Unescape(rest))
  {
  }

  /** Characters other than `%` in front of `rest` neither fail nor repair its splitting. */
  lemma {:induction false} UnescapeLiterals(t: string, rest: string)
    requires forall k :: 0 <= k < |t| ==> t[k] != '%'
    ensures Unescape(t + rest).Some? <==> Unescape(rest).Some?
    decreases |t|
  {
    if t != [] {
      var s := t + rest;
      assert s[0] == t[0] && s[0] != '%';
      assert s[1..] == t[1..] + rest;
      UnescapeLiterals(t[1..], rest);
      assert Unescape(s) == Prepend(Literal(s[0]), Unescape(s[1..]));
    } else {
      assert t + rest == rest;
    }
  }
}

=== FILE: utf8.dfy ===
/** UTF-8 as RFC 3629 defines it: the encoding of section 3, the decoding of section 3
    with the validity rules `decodeURIComponent` applies, and the byte grammar of
    section 4 as an independent description of the well-formed sequences. */
module Utf8 {
  import opened Wrappers

  /** An octet. */
  type Byte = b: int | 0 <= b < 256

  /** A continuation octet `10xxxxxx`. */
  predicate IsTail(b: int) {
    0x80 <= b <= 0xBF
  }

  /** The octets of one character (RFC 3629, section 3). */
  function EncodeChar(c: char): (bs: seq<Byte>)
    ensures 1 <= |bs| <= 4
  {
    var cp := c as int;
    if cp < 0x80 then [cp]
    else if cp < 0x800 then [0xC0 + cp / 64, 0x80 + cp % 64]
    else if cp < 0x10000 then [0xE0 + cp / 64 / 64, 0x80 + cp / 64 % 64, 0x80 + cp % 64]
    else [0xF0 + cp / 64 / 64 / 64, 0x80 + cp / 64 / 64 % 64, 0x80 + cp / 64 % 64, 0x80 + cp % 64]
  }

  /** The octets of a string, character by character. */
  function Encode(s: string): seq<Byte>
  {
    if s == [] then [] else EncodeChar(s[0]) + Encode(s[1..])
  }

  /** The number of octets of a character whose first octet is `lead` (the number of
      leading one bits, or one for `0xxxxxxx`); zero when no character starts this way. */
  function SequenceLength(lead: Byte): nat
  {
    if lead < 0x80 then 1
    else if lead < 0xC0 then 0
    else if lead < 0xE0 then 2
    else if lead < 0xF0 then 3
    else if lead < 0xF8 then 4
    else 0
  }

  /** The smallest code point that needs `n` octets; anything below it is an overlong form. */
  function MinCodePoint(n: nat): int
    requires 1 <= n <= 4
  {
    if n == 1 then 0 else if n == 2 then 0x80 else if n == 3 then 0x800 else 0x10000
  }

  /** Octets `1 .. n-1` of `bs` are continuation octets. */
  predicate TailsUpTo(bs: seq<Byte>, n: nat)
    requires n <= |bs|
  {
    forall k :: 1 <= k < n ==> IsTail(bs[k])
  }

  /** The code point carried by the first `n` octets: the payload bits of the lead octet
      followed by six bits of each continuation octet. */
  function Assemble(bs: seq<Byte>, n: nat): int
    requires 1 <= n <= 4 && n <= |bs|
  {
    if n == 1 then bs[0]
    else if n == 2 then (bs[0] as int - 0xC0) * 64 + (bs[1] as int - 0x80)
    else if n == 3 then ((bs[0] as int - 0xE0) * 64 + (bs[1] as int - 0x80)) * 64 + (bs[2] as int - 0x80)
    else (((bs[0] as int - 0xF0) * 64 + (bs[1] as int - 0x80)) * 64 + (bs[2] as int - 0x80)) * 64 + (bs[3] as int - 0x80)
  }

  /** Decodes the character at the start of `bs`, with the number of octets it takes;
      `None` for an impossible lead octet, a missing or wrong continuation octet, an
      overlong form, a surrogate or a value above U+10FFFF. */
  function DecodeFirst(bs: seq<Byte>): (r: Option<(char, nat)>)
    requires |bs| > 0
    ensures r.Some? ==> 1 <= r.value.1 <= 4 && r.value.1 <= |bs|
  {
    var n := SequenceLength(bs[0]);
    if n == 0 || |bs| < n || !TailsUpTo(bs, n) then None
    else
      var cp := Assemble(bs, n);
      if cp < MinCodePoint(n) || 0x10FFFF < cp || (0xD800 <= cp && cp <= 0xDFFF) then None
      else Some((cp as char, n))
  }

  /** Decodes a whole octet sequence, or `None` when any character in it is malformed. */
  function Decode(bs: seq<Byte>): Option<string>
    decreases |bs|
  {
    if bs == [] then Some([])
    else match DecodeFirst(bs)
      case None => None
      case Some((c, n)) =>
        match Decode(bs[n..])
        case None => None
        case Some(rest) => Some([c] + rest)
  }

  /** `bs` starts with one well-formed character of `n` octets, by the byte ranges of the
      `UTF8-char` rule (RFC 3629, section 4). */
  predicate CharAt(bs: seq<Byte>, n: nat)
  {
    if n == 1 then 1 <= |bs| && bs[0] <= 0x7F
    else if n == 2 then 2 <= |bs| && 0xC2 <= bs[0] <= 0xDF && IsTail(bs[1])
    else if n == 3 then
      3 <= |bs| && IsTail(bs[2]) &&
      (  (bs[0] == 0xE0 && 0xA0 <= bs[1] <= 0xBF)
      || (0xE1 <= bs[0] <= 0xEC && IsTail(bs[1]))
      || (bs[0] == 0xED && 0x80 <= bs[1] <= 0x9F)
      || (0xEE <= bs[0] <= 0xEF && IsTail(bs[1])))
    else if n == 4 then
      4 <= |bs| && IsTail(bs[2]) && IsTail(bs[3]) &&
      (  (bs[0] == 0xF0 && 0x90 <= bs[1] <= 0xBF)
      || (0xF1 <= bs[0] <= 0xF3 && IsTail(bs[1]))
      || (bs[0] == 0xF4 && 0x80 <= bs[1] <= 0x8F))
    else false
  }

  /** `bs` is a sequence of well-formed characters (the `UTF8-octets` rule). */
  predicate WellFormed(bs: seq<Byte>)
    decreases |bs|
  {
    || bs == []
    || (CharAt(bs, 1) && WellFormed(bs[1..]))
    || (CharAt(bs, 2) && WellFormed(bs[2..]))
    || (CharAt(bs, 3) && WellFormed(bs[3..]))
    || (CharAt(bs, 4) && WellFormed(bs[4..]))
  }

  /** The decoder accepts a character of `n` octets exactly when the grammar does. */
  lemma DecodeFirstIffCharAt(bs: seq<Byte>, n: nat)
    requires |bs| > 0 && 1 <= n <= 4
    ensures (DecodeFirst(bs).Some? && DecodeFirst(bs).value.1 == n) <==> CharAt(bs, n)
  {
  }

  /** Decoding succeeds exactly on the well-formed sequences. */
  lemma {:induction false} DecodeIffWellFormed(bs: seq<Byte>)
    ensures Decode(bs).Some? <==> WellFormed(bs)
    decreases |bs|
  {
    if bs != [] {
      DecodeFirstIffCharAt(bs, 1);
      DecodeFirstIffCharAt(bs, 2);
      DecodeFirstIffCharAt(bs, 3);
      DecodeFirstIffCharAt(bs, 4);
      match DecodeFirst(bs)
      case None =>
      case Some((c, n)) =>
        DecodeIffWellFormed(bs[n..]);
    }
  }

  /** The octets written for `c` decode back to `c`, whatever follows them. */
  lemma EncodeCharDecodes(c: char, rest: seq<Byte>)
    ensures DecodeFirst(EncodeChar(c) + rest) == Some((c, |EncodeChar(c)|))
  {
  }

  /** A character the decoder accepts was written with exactly the octets it was read from. */
  lemma DecodeFirstEncodes(bs: seq<Byte>)
    requires |bs| > 0 && DecodeFirst(bs).Some?
    ensures EncodeChar(DecodeFirst(bs).value.0) == bs[..DecodeFirst(bs).value.1]
  {
    var n := DecodeFirst(bs).value.1;
    var cp := Assemble(bs, n);
    assert TailsUpTo(bs, n);
    if n == 2 {
      assert IsTail(bs[1]);
      DivMod64(cp, bs[0] as int - 0xC0, bs[1] as int - 0x80);
    } else if n == 3 {
      assert IsTail(bs[1]) && IsTail(bs[2]);
      var q: int := (bs[0] as int - 0xE0) * 64 + (bs[1] as int - 0x80);
      DivMod64(cp, q, bs[2] as int - 0x80);
      DivMod64(q, bs[0] as int - 0xE0, bs[1] as int - 0x80);
    } else if n == 4 {
      assert IsTail(bs[1]) && IsTail(bs[2]) && IsTail(bs[3]);
      var q2: int := (bs[0] as int - 0xF0) * 64 + (bs[1] as int - 0x80);
      var q: int := q2 * 64 + (bs[2] as int - 0x80);
      DivMod64(cp, q, bs[3] as int - 0x80);
      DivMod64(q, q2, bs[2] as int - 0x80);
      DivMod64(q2, bs[0] as int - 0xF0, bs[1] as int - 0x80);
    }
  }

  /** Division by 64 undoes `q * 64 + r` for a remainder below 64. */
  lemma DivMod64(x: int, q: int, r: int)
    requires x == q * 64 + r && 0 <= r < 64
    ensures x / 64 == q && x % 64 == r
  {
  }

  /** Decoding the encoding of a string gives the string back. */
  lemma {:induction false} DecodeEncode(s: string)
    ensures Decode(Encode(s)) == Some(s)
    decreases |s|
  {
    if s != [] {
      var e := EncodeChar(s[0]);
      EncodeCharDecodes(s[0], Encode(s[1..]));
      assert (e + Encode(s[1..]))[|e|..] == Encode(s[1..]);
      DecodeEncode(s[1..]);
      assert [s[0]] + s[1..] == s;
    }
  }

  /** A sequence that decodes is the encoding of what it decodes to. */
  lemma {:induction false} EncodeDecode(bs: seq<Byte>)
    requires Decode(bs).Some?
    ensures Encode(Decode(bs).value) == bs
    decreases |bs|
  {
    if bs != [] {
      DecodeStep(bs);
      var c, n := DecodeFirst(bs).value.0, DecodeFirst(bs).value.1;
      EncodeDecode(bs[n..]);
      ReencodeStep(bs, c, n, Decode(bs[n..]).value);
    }
  }

  /** A first character and a rest that each re-encode to their octets re-encode together
      to the whole sequence. */
  lemma ReencodeStep(bs: seq<Byte>, c: char, n: nat, tail: string)
    requires bs != [] && DecodeFirst(bs) == Some((c, n))
    requires Encode(tail) == bs[n..]
    ensures Encode([c] + tail) == bs
  {
    DecodeFirstEncodes(bs);
    EncodeStep(c, tail);
    assert bs[..n] + bs[n..] == bs;
  }

  /** One step of a successful decode: the first character, then the rest. */
  lemma DecodeStep(bs: seq<Byte>)
    requires bs != [] && Decode(bs).Some?
    ensures DecodeFirst(bs).Some? && Decode(bs[DecodeFirst(bs).value.1..]).Some?
    ensures Decode(bs).value == [DecodeFirst(bs).value.0] + Decode(bs[DecodeFirst(bs).value.1..]).value
  {
  }

  /** One step of encoding: the first character's octets, then the rest. */
  lemma EncodeStep(c: char, tail: string)
    ensures Encode([c] + tail) == EncodeChar(c) + Encode(tail)
  {
  }

  /** Octets below 0x80 decode one character each, to the character with that code. */
  lemma {:induction false} DecodeAscii(bs: seq<Byte>)
    requires forall i :: 0 <= i < |bs| ==> bs[i] < 0x80
    ensures Decode(bs).Some? && |Decode(bs).value| == |bs|
    ensures forall i :: 0 <= i < |bs| ==> Decode(bs).value[i] as int == bs[i]
    decreases |bs|
  {
    if bs != [] {
      assert DecodeFirst(bs) == Some((bs[0] as char, 1));
      DecodeAscii(bs[1..]);
      var s := Decode(bs).value;
      assert s == [bs[0] as char] + Decode(bs[1..]).value;
      forall i | 1 <= i < |bs| ensures s[i] as int == bs[i] {
        assert s[i] == Decode(bs[1..]).value[i - 1];
      }
    }
  }
}

=== FILE: wrappers.dfy ===
/** Failure-carrying datatypes shared by the other modules. */
module Wrappers {

  /** An optional value; `None` stands for JavaScript's `undefined` where a host service may give nothing. */
  datatype Option<+T> = None | Some(value: T)

  /** Either a value or the error a JavaScript call would have thrown. */
  datatype Result<+T, +E> = Success(value: T) | Failure(error: E)
}
